=== FILE: README.md ===
# Vehicle-rental API: gate, login and dashboard arithmetic in Dafny

This project models the decision logic of a vehicle-rental HTTP API. Most of
that API is parameterised SQL followed by field-for-field row mapping, and is
not modelled. What is modelled are the small pure procedures around it:

- **The bearer-token role gate** (`BearAuth`). It is the fixed chain of
  checks that `authMiddleware` runs in front of every protected route:
  - the `Authorization` header is present;
  - it carries the `"Bearer "` prefix (section 2.1 of RFC 6750, here
    case-sensitive and with exactly one space);
  - the signing secret is configured;
  - the token verifies, and its `exp` claim (section 4.1.4 of RFC 7519) is
    re-checked against the clock;
  - the token's role satisfies the route's policy.

  The chain answers 401, 401, 500, 401 or 403, or lets the request through.
  The module also covers the four fixed-policy wrappers and the hand-inlined
  `adminOrCustomerAuth`.
- **Login and registration** (`AuthController`). These are the controller's
  outcome logic. The user lookup, bcrypt, JWT signing, the user insert and
  the welcome mail are oracles.
- **Dashboard and analytics arithmetic** (`Percentages`, `AnalyticsService`,
  `DashboardService`). This covers:
  - percentage change with its zero-baseline rule and rounding to one
    decimal;
  - the placeholder utilisation change;
  - the 100 % cap on top-vehicle utilisation;
  - the choice of date grouping per reporting period;
  - normalisation of recent-booking rows;
  - the all-zero fallbacks when a statistics query fails.

Modules, one per file: `Wrappers` (`Option`, `Result`), `Js` (JavaScript's
`x || fallback` on strings and ASCII `toLowerCase`), `BearAuth`,
`AuthController`, `Percentages`, `AnalyticsService`, `DashboardService`.

Parameters stand in for everything the code reads from outside:
- The request header and the `JWT_SECRET` environment variable are each
  `Option<string>`. JavaScript's `!x` is also true for `""`, so an empty
  header or secret counts as absent.
- `jwt.verify` is the function parameter `jwtVerify: (token, secret) -> Option<Decoded>`.
  `None` means the library threw.
- The clock is `nowMs`, which plays the part of `Date.now()`.
- A database call is its returned value or the message it threw, written as
  `Result<…, string>`.
- A column that `parseFloat`/`parseInt` cannot read is `None` (it stands for
  `NaN`). `|| 0` turns it into 0.

Numbers are exact: `real` for JavaScript numbers that may be fractional, and
`int` for counts. `Math.round(x)` is `Floor(x + 1/2)`.

Two behaviours of the code that are easy to miss:
- `verifyToken`'s own re-check rejects only when `exp < now`, in whole
  seconds, and a zero `exp` skips it. `jwt.verify` itself already refuses a
  token whose `exp` is at or before the current second (its
  `TokenExpiredError`). The two read `Date.now()` separately; when both read
  the same second, the re-check never changes the answer with the real
  library (`BearAuth.RecheckRedundantAfterLibrary`). Before the re-check,
  `verifyToken` logs `exp` and `iat` as ISO dates inside its `try`. A token without either claim, or
  with one beyond the range of a JavaScript `Date`, makes that logging throw,
  and the token is refused with 401.
- The payments controller calls `createStripePaymentIntent` and
  `confirmStripePayment`, but the payments service defines neither of them.
  That booking-and-payment workflow is not part of this model.

Consequences the proofs make explicit:
- Login only ever issues the roles `"admin"` and `"user"`. So the customer
  policy, and `adminOrCustomerAuth`, admit only admin logins
  (`AuthController.IssuedTokenAtTheGate`).
- Registration answers 500 when the mailer throws, even after the user row
  has been inserted (`AuthController.Register`).
- The dashboard reports a utilisation change of 5.2 whatever the data, even
  where its own helper would give 0 (`DashboardService.UtilizationChangeIsMock`).

## Model

| member | source | states |
|---|---|---|
| `BearAuth.RoleOf` | src/middleware/bearauth.ts:108-133 | a payload role is one of the three known roles exactly when it is the string "admin", "user" or "customer"; any other string is kept as an unknown role |
| `BearAuth.BearerToken` | src/middleware/bearauth.ts:81-87 | a token is extracted exactly when the header starts with "Bearer ", and the header is then "Bearer " followed by the extracted token |
| `BearAuth.BearerTokenRoundTrip` | src/middleware/bearauth.ts:81-87 | prefixing "Bearer " to any token and extracting again gives back that token |
| `BearAuth.VerifyToken` | src/middleware/bearauth.ts:23-65 | never fails, only returns none; none whenever the library rejects; when the library accepts, none exactly when `exp` or `iat` is absent or outside the range of a `Date` (±8.64e12 s), or `exp` is non-zero and earlier than the current whole second; a returned token is the library's decoding unchanged |
| `BearAuth.RoleSatisfiesMatchesTable` | src/middleware/bearauth.ts:108-133 | the middleware's string comparisons accept a role exactly when the policy table does: admin→{admin}, user→{user}, customer→{customer, admin}, both→{admin, user, customer} |
| `BearAuth.AuthMiddleware` | src/middleware/bearauth.ts:67-134 | no header (or an empty one): 401 "Authorization header is required"; no "Bearer " prefix: 401 "Bearer token is required"; no secret: 500 "Server configuration error"; a token that fails `verifyToken`: 401 "Invalid or expired token"; rejections are 401/403/500 only; on allow, the attached user is what the verifier returned for the header minus its first 7 characters, and its role is in the policy's table; a 403 happens only after a successful verification with a role outside the table |
| `BearAuth.AdminRoleAuth` | src/middleware/bearauth.ts:136-139 | lets through only tokens whose role is "admin" |
| `BearAuth.UserRoleAuth` | src/middleware/bearauth.ts:141-144 | lets through only tokens whose role is "user" |
| `BearAuth.CustomerRoleAuth` | src/middleware/bearauth.ts:146-149 | lets through only tokens whose role is "customer" or "admin" |
| `BearAuth.BothRolesAuth` | src/middleware/bearauth.ts:151-154 | never lets through a token whose role is not one of the three known roles |
| `BearAuth.AdminOrCustomerAuth` | src/middleware/bearauth.ts:157-184 | lets through only "admin" or "customer" tokens; a missing header or prefix gives 401 "Bearer token is required" (never "Authorization header is required"); no secret gives 500 "Server configuration error"; a token that fails `verifyToken` gives 401 "Invalid or expired token" |
| `BearAuth.MissingSecretPrecedesVerification` | src/middleware/bearauth.ts:90-97 | with a well-formed header but no secret, the answer is 500 whatever the verifier would say |
| `BearAuth.VerifierSeesBearerSuffix` | src/middleware/bearauth.ts:87-97 | the outcome depends on the verifier only through its answer for (header without "Bearer ", secret); without the prefix it does not depend on the verifier at all |
| `BearAuth.DecisionAfterVerification` | src/middleware/bearauth.ts:108-133 | once the token verifies, the outcome is allow-with-the-decoded-token-unchanged if its role is in the policy's table, else 403 "Insufficient permissions" |
| `BearAuth.ExpiredTokenRejected` | src/middleware/bearauth.ts:41-48 | a token the library accepts but whose non-zero `exp` lies in a past second gets 401 "Invalid or expired token" |
| `BearAuth.ExpiryBoundary` | src/middleware/bearauth.ts:41-50 | a token the library accepts, whose `exp` and `iat` fit in a `Date` and whose `exp` is the current second, or 0, passes the re-check as decoded (the re-check is strict) |
| `BearAuth.RecheckRedundantAfterLibrary` | src/middleware/bearauth.ts:30-50 | when the library has itself refused every token whose `exp` is at or before the current second, `verifyToken` returns exactly the library's decoding of every token whose claims fit in a `Date`: the re-check never rejects |
| `BearAuth.UnknownRoleForbidden` | src/middleware/bearauth.ts:125-133 | an unknown role string satisfies no policy |
| `BearAuth.PoliciesNested` | src/middleware/bearauth.ts:108-130 | the admin policy's roles are strictly within the customer policy's roles, which are strictly within those of both; user is within both but not within customer |
| `BearAuth.WrappersFixPolicy` | src/middleware/bearauth.ts:136-154 | each of the four wrappers equals the middleware with the policy fixed to admin, user, customer or both |
| `BearAuth.AdminOrCustomerIsCustomerPolicy` | src/middleware/bearauth.ts:157-184 | the inlined variant gives the customer policy's outcome on every request with a header; with no header it answers 401 "Bearer token is required"; it allows exactly when the customer policy does, with the same status codes |
| `BearAuth.UnloggableClaimsRejected` | src/middleware/bearauth.ts:30-51 | a token the library accepts but that lacks `exp` or `iat`, or holds one outside the range of a `Date`, gets 401 "Invalid or expired token" from every gate, whatever its role |
| `BearAuth.AdminTokenScenario` | src/middleware/bearauth.ts:97-130 | an "admin" token issued now with the configured secret and expiring in an hour, within the range of a `Date`, passes the admin gate carrying its decoded claims |
| `AuthController.IssuedRole` | src/Auth/auth.controller.ts:77 | the issued role is "admin" exactly when the stored role is "admin", else "user" |
| `AuthController.PayloadOf` | src/Auth/auth.controller.ts:78-84 | the payload copies id, names and e-mail from the stored user and carries the issued role |
| `AuthController.Login` | src/Auth/auth.controller.ts:64-107 | failures are 400 "Invalid email or password 😟" or 500; a throwing lookup or signer gives 500 with its message; a stored user whose password checks and whose payload signs is logged in, and only then; the returned user is the stored user's payload, and the token is "Bearer " + the signature of that same payload |
| `AuthController.LoginFailuresIndistinguishable` | src/Auth/auth.controller.ts:67-75 | an unknown e-mail and a wrong password give the identical 400 reply |
| `AuthController.LoginRole` | src/Auth/auth.controller.ts:77 | a successful login's role is "admin" iff the stored role is "admin" and "user" iff it is anything else, "customer" included |
| `AuthController.LoginTokenRoundTrip` | src/Auth/auth.controller.ts:86-87 | the issued token, used verbatim as the header, passes the gate's prefix check, and extraction yields exactly the signed token |
| `AuthController.ClaimsOf` | src/Auth/auth.controller.ts:87 | the claims of an issued token carry the payload's identity and role, the issue time as `iat`, and expire one hour after issue |
| `AuthController.IssuedTokenAtTheGate` | src/Auth/auth.controller.ts:77-87 | within its hour, and when that hour ends within the range of a `Date`, a login token passes the "both" gate with its claims; it passes the customer and admin gates iff the stored role is "admin", and the user gate iff it is not |
| `AuthController.Register` | src/Auth/auth.controller.ts:32-62 | the e-mail lookup always comes first; a success carries "User registered successfully ✅"; failures are 400 or 500; any insert made receives `hash(password)`, the output of the hashing function applied to the submitted password |
| `AuthController.RegisterExistingEmail` | src/Auth/auth.controller.ts:36-39 | an e-mail already on file gives 400 "Email already exists 😟" after the lookup alone; `registerUser` is never called |
| `AuthController.RegisterCreatedExactly` | src/Auth/auth.controller.ts:45-57 | 201 iff the e-mail is new, `registerUser` returns exactly the success string and the mailer does not throw; any other returned string becomes a 500 carrying it |
| `AuthController.RegisterMailAttempted` | src/Auth/auth.controller.ts:45-57 | the welcome mail is attempted iff the e-mail was new and `registerUser` returned, whether or not it reported success |
| `Percentages.JsRound` | src/Analytics/Analytics.service.ts:568 | `Math.round(x)` is the integer k with x − 1/2 < k ≤ x + 1/2 |
| `Percentages.RoundToTenth` | src/Analytics/Analytics.service.ts:567-568 | `Math.round(x·10)/10` is a multiple of 0.1 within half a tenth of x |
| `Percentages.NearestTenthUnique` | src/Analytics/Analytics.service.ts:567-568 | there is only one such nearest tenth |
| `Percentages.ChangeSpecUnique` | src/Analytics/Analytics.service.ts:563-577 | the percentage-change rule determines its result, so any two helpers meeting it agree |
| `Percentages.NearestTenthSign` | src/Analytics/Analytics.service.ts:567-568 | rounding to a tenth keeps a non-negative value non-negative and a non-positive one non-positive |
| `Percentages.NearestTenthMonotonic` | src/Analytics/Analytics.service.ts:567-568 | rounding to a tenth is monotonic |
| `Percentages.ChangeSignPositiveBase` | src/Analytics/Analytics.service.ts:567-568 | against a positive baseline, current ≥ previous gives a change ≥ 0, current ≤ previous gives ≤ 0, equal gives 0 |
| `Percentages.ChangeMonotonic` | src/Analytics/Analytics.service.ts:567-568 | against a fixed positive baseline, a larger current value never gives a smaller change |
| `AnalyticsService.PercentageChange` | src/Analytics/Analytics.service.ts:563-569 | against a zero baseline, 100 for growth and 0 otherwise; else the exact relative change in percent, rounded to one decimal with halves going up |
| `AnalyticsService.UtilizationChange` | src/Analytics/Analytics.service.ts:571-577 | the same rule for active-vehicle counts |
| `AnalyticsService.UtilizationAgreesWithPercentage` | src/Analytics/Analytics.service.ts:563-577 | the utilisation helper equals the percentage helper on every input |
| `AnalyticsService.PercentageChangeZeroBase` | src/Analytics/Analytics.service.ts:564-566 | a zero baseline gives 100 when current > 0 and 0 otherwise |
| `AnalyticsService.PercentageChangeRounding` | src/Analytics/Analytics.service.ts:567-568 | for a non-zero baseline, ten times the result is an integer within one half of ten times the exact change |
| `AnalyticsService.PercentageChangeSign` | src/Analytics/Analytics.service.ts:567-568 | for a positive baseline, growth gives ≥ 0, decline ≤ 0, no change exactly 0 |
| `AnalyticsService.BookingTrendsGrouping` | src/Analytics/Analytics.service.ts:211-223 | booking trends group by hour ('HH:00') iff the period is 'day', and by day ('yyyy-MM-dd') for every other period string |
| `AnalyticsService.UserGrowthGrouping` | src/Analytics/Analytics.service.ts:258-276 | user growth groups by hour iff 'day', by month ('yyyy-MM') iff 'quarter' or 'year', and by day for 'week', 'month' and every unrecognised period |
| `AnalyticsService.GroupingsDifferOnlyForLongPeriods` | src/Analytics/Analytics.service.ts:211-276 | the two trend queries group alike exactly when the period is neither 'quarter' nor 'year'; the `FORMAT` pattern is 'HH:00' iff the period is 'day', user growth uses 'yyyy-MM' iff 'quarter' or 'year', and 'yyyy-MM-dd' otherwise |
| `AnalyticsService.GetAnalyticsStats` | src/Analytics/Analytics.service.ts:135-166 | a failed stats query or a throw from `getPreviousPeriodStats` gives all eight fields 0; otherwise the four totals are the row's values (unreadable ones 0) and each change meets the percentage-change rule for its (current, previous) pair |
| `AnalyticsService.SteadyPeriodShowsNoChange` | src/Analytics/Analytics.service.ts:135-146 | totals equal to a positive previous period report 0 change in all four change fields |
| `DashboardService.PercentageChange` | src/dashboardData/dashboard-data.service.ts:345-351 | the dashboard's copy meets the same percentage-change rule |
| `DashboardService.PercentageChangeAgreesWithAnalytics` | src/dashboardData/dashboard-data.service.ts:345-351 | the dashboard's and the analytics page's percentage change agree on every input |
| `DashboardService.UtilizationChange` | src/dashboardData/dashboard-data.service.ts:353-356 | 5.2 exactly when some vehicle is active, 0 exactly when none is |
| `DashboardService.GetDashboardStats` | src/dashboardData/dashboard-data.service.ts:119-157 | a failed stats query or a throw from `getPreviousPeriodStats` gives all eleven fields 0; otherwise the seven counts are the row's values (unreadable ones 0), the three changes meet the percentage-change rule, and the utilisation change is 5.2 |
| `DashboardService.UtilizationChangeIsMock` | src/dashboardData/dashboard-data.service.ts:129 | a successful read reports 5.2 whatever the data, even with no active vehicle; a failed one (either query) reports 0 |
| `DashboardService.TopVehicleUtilization` | src/dashboardData/dashboard-data.service.ts:250 | never above 100; within [0, 100] for a non-negative count; exactly 100 iff the count is at least 30; an unreadable count gives 0 |
| `DashboardService.TopVehicleUtilizationInIntegers` | src/dashboardData/dashboard-data.service.ts:250 | the utilisation equals min((20n + 3) div 6, 100), the nearest integer to 10n/3 capped at 100 |
| `DashboardService.ToTopVehicle` | src/dashboardData/dashboard-data.service.ts:243-251 | each field is the row's value under its `||` default: id (or ""), name (or "Unknown Vehicle"), type (or "Standard"), revenue and rate (or 0), booking count (or 0); the utilisation is the capped figure of the row's booking count, so at most 100; name and type are never empty |
| `DashboardService.GetTopVehicles` | src/dashboardData/dashboard-data.service.ts:239-255 | a failed query gives no vehicles; otherwise one vehicle per row, in row order, each mapped from its row, all with utilisation at most 100 |
| `DashboardService.NormalizeStatus` | src/dashboardData/dashboard-data.service.ts:204 | never empty and without upper-case letters; a missing or empty status becomes "pending"; a non-empty status is its lower-cased self: same length, and unchanged if already lower-case |
| `DashboardService.NormalizeStatusIdempotent` | src/dashboardData/dashboard-data.service.ts:204 | normalising a normalised status changes nothing |
| `DashboardService.ToRecentBooking` | src/dashboardData/dashboard-data.service.ts:195-210 | reference, customer, vehicle and type are never empty, and non-empty values pass unchanged; id and e-mail (or ""), amount and rate (or 0) come from the row; the status is the row's status normalised; a missing or empty date takes its own clock reading; pickup location and plate are passed through as they are |
| `DashboardService.RecentBookingDefaults` | src/dashboardData/dashboard-data.service.ts:196-204 | missing or empty reference, customer, vehicle, type and status become 'BOOK-00000000', 'Unknown Customer', 'Unknown Vehicle', 'Standard' and 'pending' |
| `DashboardService.RecentBookingNormalizationIdempotent` | src/dashboardData/dashboard-data.service.ts:195-210 | a normalised booking, read back as a row, normalises to itself whatever the clock then reads |
| `DashboardService.GetRecentBookings` | src/dashboardData/dashboard-data.service.ts:191-217 | a failed query gives no bookings; otherwise one booking per row, in row order, each mapped from its row with that row's own clock readings, every status non-empty and lower-case |
| `Js.StrOr` | src/dashboardData/dashboard-data.service.ts:196-201 | JavaScript's fallback on strings keeps a non-empty string and replaces a missing or empty one by the fallback |
| `Js.ToLower` | src/dashboardData/dashboard-data.service.ts:204 | lower-casing keeps the length, maps each character by position (each of 'A'..'Z' to the letter at the same place in 'a'..'z', every other character to itself), and leaves no upper-case letter |
| `Js.ToLowerIdempotent` | src/dashboardData/dashboard-data.service.ts:204 | lower-casing twice is lower-casing once |

## Left out

- SQL queries, `getDbPool` and the CRUD services. Their results are inputs; database semantics are not visible in the code.
- Throws outside the services' and controllers' `try` blocks: `getDbPool()` and `calculateDateRange` before the stats queries, `getDbPool()` in the dashboard's list queries, and `c.req.json()` in login and register. Such a throw escapes to the framework's default 500 reply. It is not modelled; the `query` and `lookup` inputs stand only for failures inside the `try`.
- `calculateDateRange` and both `getPreviousPeriodStats`. They depend on JavaScript `Date`, time zones and calendar arithmetic. The previous-period figures are inputs, as a returned value or the message of a throw from outside their `try`.
- SQL-side aggregates (`ROUND`/`NULLIF` utilisation, the monthly CTEs), `getTopPerformingVehicles`, `getPopularVehicleTypes`, `getKpiMetrics` and the row mapping of the two trend queries. Only their SQL is non-trivial.
- The booking-and-payment confirmation workflow. The service functions the payments controller calls do not exist in the code.
- Controllers other than login/register, the route files, the server entry point, validation middleware (a wrapper over zod), logging and the mailer's internals.
- The internals of `jsonwebtoken` and `bcryptjs`. Signature checking, signing and hashing are oracles.
- `Js.ToLower`: lower-cases only ASCII A–Z. JavaScript's `toLowerCase` also maps non-ASCII upper-case letters.
- `AnalyticsService.PercentageChange`: computes over exact reals. Rounding errors of IEEE-754 doubles in the division and in `Math.round` are not modelled, and neither are `NaN` or infinite inputs.
- `DashboardService.TopVehicleUtilization`: computes over exact reals. `NaN` is modelled only as an unreadable count.
- `AuthController.Login`: `bcrypt.compareSync` is modelled as never throwing.
- `AuthController.Register`: `bcrypt.genSaltSync`/`hashSync` are one total function. A throw from them is not modelled. Salt randomness is folded into that function.
- `BearAuth.VerifyToken`: the expiry, not-before and signature checks of the JWT library are inside the oracle, along with its error kinds (used only for logging). The code re-checks only `exp`. The `exp` and `iat` claims are whole numbers; a fractional or non-numeric claim is not modelled.

=== FILE: analytics.dfy ===
/** The pure part of the analytics service: the change helpers, the choice
    of date grouping per reporting period, and the assembly of the headline
    statistics (with its all-zero fallback when the query fails).

    Query results are inputs. A numeric column that `parseFloat`/`parseInt`
    cannot read is `None` (JavaScript's `NaN`), which `|| 0` turns into 0. */
module AnalyticsService {
  import opened Wrappers
  import Percentages

  /** `calculatePercentageChange(current, previous)`. */
  function PercentageChange(current: real, previous: real): (r: real)
    ensures Percentages.ChangeSpec(current, previous, r)
  {
    if previous == 0.0 then (if current > 0.0 then 100.0 else 0.0)
    else
      var change := ((current - previous) / previous) * 100.0;
      Percentages.RoundToTenth(change);
      Percentages.JsRound(change * 10.0) as real / 10.0
  }

  /** `calculateUtilizationChange(current, previous)`, a second copy of the
      same rule for active-vehicle counts. */
  function UtilizationChange(currentActiveVehicles: real, previousActiveVehicles: real): (r: real)
    ensures Percentages.ChangeSpec(currentActiveVehicles, previousActiveVehicles, r)
  {
    if previousActiveVehicles == 0.0 then (if currentActiveVehicles > 0.0 then 100.0 else 0.0)
    else
      var change := ((currentActiveVehicles - previousActiveVehicles) / previousActiveVehicles) * 100.0;
      Percentages.RoundToTenth(change);
      Percentages.JsRound(change * 10.0) as real / 10.0
  }

  /** The two helpers agree on every input. */
  lemma UtilizationAgreesWithPercentage(current: real, previous: real)
    ensures UtilizationChange(current, previous) == PercentageChange(current, previous)
  {
    Percentages.ChangeSpecUnique(current, previous, UtilizationChange(current, previous), PercentageChange(current, previous));
  }

  /** Zero baseline: 100 for growth from nothing, 0 otherwise (including a
      negative current value). */
  lemma PercentageChangeZeroBase(current: real)
    ensures PercentageChange(current, 0.0) == (if current > 0.0 then 100.0 else 0.0)
  {
  }

  /** Non-zero baseline: ten times the result is a whole number within one
      half of ten times the exact change. */
  lemma PercentageChangeRounding(current: real, previous: real)
    requires previous != 0.0
    ensures var r := PercentageChange(current, previous);
      var exact := (current - previous) / previous * 100.0;
      && (r * 10.0).Floor as real == r * 10.0
      && exact * 10.0 - 0.5 < r * 10.0 <= exact * 10.0 + 0.5
  {
  }

  /** Positive baseline: growth is never negative, a decline never positive,
      no change is exactly zero. */
  lemma PercentageChangeSign(current: real, previous: real)
    requires previous > 0.0
    ensures current >= previous ==> PercentageChange(current, previous) >= 0.0
    ensures current <= previous ==> PercentageChange(current, previous) <= 0.0
    ensures current == previous ==> PercentageChange(current, previous) == 0.0
  {
    Percentages.ChangeSignPositiveBase(current, previous, PercentageChange(current, previous));
  }

  // ---------------------------------------------------------------------
  // Date grouping per reporting period

  /** The `FORMAT` pattern a trend query groups its rows by. */
  datatype DateGrouping = HourOfDay | CalendarDay | CalendarMonth {
    function Pattern(): string {
      match this
      case HourOfDay => "HH:00"
      case CalendarDay => "yyyy-MM-dd"
      case CalendarMonth => "yyyy-MM"
    }
  }

  /** The grouping `getBookingTrends` uses: hours for a day, days otherwise. */
  function BookingTrendsGrouping(period: string): (g: DateGrouping)
    ensures g == HourOfDay <==> period == "day"
    ensures g == CalendarDay <==> period != "day"
  {
    match period
    case "day" => HourOfDay
    case "week" => CalendarDay
    case _ => CalendarDay
  }

  /** The grouping `getUserGrowth` uses: hours for a day, days for a week or
      month, months for a quarter or year, and days for anything else. */
  function UserGrowthGrouping(period: string): (g: DateGrouping)
    ensures g == HourOfDay <==> period == "day"
    ensures g == CalendarMonth <==> period == "quarter" || period == "year"
    ensures g == CalendarDay <==> period != "day" && period != "quarter" && period != "year"
  {
    match period
    case "day" => HourOfDay
    case "week" => CalendarDay
    case "month" => CalendarDay
    case "quarter" => CalendarMonth
    case "year" => CalendarMonth
    case _ => CalendarDay
  }

  /** The two trend queries group alike except for quarters and years,
      where user growth is counted per month and bookings per day. */
  lemma GroupingsDifferOnlyForLongPeriods(period: string)
    ensures BookingTrendsGrouping(period) == UserGrowthGrouping(period)
        <==> period != "quarter" && period != "year"
    ensures BookingTrendsGrouping(period).Pattern() == "HH:00" <==> period == "day"
    ensures BookingTrendsGrouping(period).Pattern() == "yyyy-MM-dd" <==> period != "day"
    ensures UserGrowthGrouping(period).Pattern() == "HH:00" <==> period == "day"
    ensures UserGrowthGrouping(period).Pattern() == "yyyy-MM" <==> period == "quarter" || period == "year"
    ensures UserGrowthGrouping(period).Pattern() == "yyyy-MM-dd" <==> period != "day" && period != "quarter" && period != "year"
  {
  }

  // ---------------------------------------------------------------------
  // Headline statistics

  /** The current-period row of the stats query. */
  datatype CurrentRow = CurrentRow(
    revenue: Option<real>,
    bookings: Option<int>,
    users: Option<int>,
    activeVehicles: Option<int>)

  /** What `getPreviousPeriodStats` returned. It answers zeros when its own
      queries fail, but obtaining the connection pool and computing the
      previous date range happen outside its `try`; such a throw is the
      `Failure` of the `previous` input to `GetAnalyticsStats`. */
  datatype PreviousStats = PreviousStats(
    previousRevenue: real,
    previousBookings: int,
    previousUsers: int,
    previousActiveVehicles: int)

  datatype AnalyticsStats = AnalyticsStats(
    totalRevenue: real,
    totalBookings: int,
    totalUsers: int,
    activeVehicles: int,
    revenueChange: real,
    bookingChange: real,
    userChange: real,
    utilizationChange: real)

  const ZeroStats: AnalyticsStats := AnalyticsStats(0.0, 0, 0, 0, 0.0, 0.0, 0.0, 0.0)

  /** `getAnalyticsStats(period)`, given what the stats query and
      `getPreviousPeriodStats` returned or threw. Either throw lands in the
      same `catch`. */
  function GetAnalyticsStats(query: Result<CurrentRow, string>, prev: Result<PreviousStats, string>): (s: AnalyticsStats)
    ensures query.Failure? || prev.Failure? ==> s == ZeroStats
    ensures query.Success? && prev.Success? ==>
      var row := query.value;
      var previous := prev.value;
      && s.totalRevenue == row.revenue.GetOr(0.0)
      && s.totalBookings == row.bookings.GetOr(0)
      && s.totalUsers == row.users.GetOr(0)
      && s.activeVehicles == row.activeVehicles.GetOr(0)
      && Percentages.ChangeSpec(s.totalRevenue, previous.previousRevenue, s.revenueChange)
      && Percentages.ChangeSpec(s.totalBookings as real, previous.previousBookings as real, s.bookingChange)
      && Percentages.ChangeSpec(s.totalUsers as real, previous.previousUsers as real, s.userChange)
      && Percentages.ChangeSpec(s.activeVehicles as real, previous.previousActiveVehicles as real, s.utilizationChange)
  {
    if query.Failure? || prev.Failure? then ZeroStats
    else
      var row := query.value;
      var previous := prev.value;
      AnalyticsStats(
        row.revenue.GetOr(0.0),
        row.bookings.GetOr(0),
        row.users.GetOr(0),
        row.activeVehicles.GetOr(0),
        PercentageChange(row.revenue.GetOr(0.0), previous.previousRevenue),
        PercentageChange(row.bookings.GetOr(0) as real, previous.previousBookings as real),
        PercentageChange(row.users.GetOr(0) as real, previous.previousUsers as real),
        UtilizationChange(row.activeVehicles.GetOr(0) as real, previous.previousActiveVehicles as real))
  }

  /** Unchanged totals against a positive baseline report no change at all. */
  lemma SteadyPeriodShowsNoChange(row: CurrentRow, previous: PreviousStats)
    requires row.revenue.GetOr(0.0) == previous.previousRevenue > 0.0
    requires row.bookings.GetOr(0) == previous.previousBookings > 0
    requires row.users.GetOr(0) == previous.previousUsers > 0
    requires row.activeVehicles.GetOr(0) == previous.previousActiveVehicles > 0
    ensures var s := GetAnalyticsStats(Success(row), Success(previous));
      s.revenueChange == 0.0 && s.bookingChange == 0.0 && s.userChange == 0.0 && s.utilizationChange == 0.0
  {
    var s := GetAnalyticsStats(Success(row), Success(previous));
    Percentages.ChangeSignPositiveBase(s.totalRevenue, previous.previousRevenue, s.revenueChange);
    Percentages.ChangeSignPositiveBase(s.totalBookings as real, previous.previousBookings as real, s.bookingChange);
    Percentages.ChangeSignPositiveBase(s.totalUsers as real, previous.previousUsers as real, s.userChange);
    Percentages.ChangeSignPositiveBase(s.activeVehicles as real, previous.previousActiveVehicles as real, s.utilizationChange);
  }
}

=== FILE: auth_controller.dfy ===
/** Login and registration, with the database lookup, password hashing,
    token signing and the welcome mail as oracles.

    Each oracle is either an input (the value the call returned, or the
    message of the error it threw) or a function parameter. What is left is
    the controller's decision: which answer the client gets, which role the
    issued token carries, and which side-effecting calls are made. */
module AuthController {
  import opened Wrappers
  import BearAuth

  /** A row of the `Users` table as `getUserByEmail` returns it. */
  datatype StoredUser = StoredUser(
    userId: string,
    firstName: string,
    lastName: string,
    email: string,
    passwordHash: string,
    role: string)

  /** The token payload and the `user` object of a successful login. */
  datatype UserPayload = UserPayload(
    userId: string,
    firstName: string,
    lastName: string,
    email: string,
    role: string)

  datatype LoginReply =
    | LoggedIn(message: string, token: string, user: UserPayload)   // 200
    | LoginFailed(status: int, error: string)

  /** `getUserByEmail(email)`: the row, no row, or the message it threw. */
  type Lookup = Result<Option<StoredUser>, string>

  /** `bcrypt.compareSync(plain, hash)`. */
  type PasswordCheck = (string, string) -> bool

  /** `jwt.sign(payload, secret, { expiresIn: '1h' })`: the signed token, or
      the message it threw (for instance when the secret is not set). */
  type Signer = UserPayload -> Result<string, string>

  const MsgBadCredentials: string := "Invalid email or password \U{1F61F}"
  const MsgLoginOk: string := "Login successful \U{1F389}"
  const MsgEmailTaken: string := "Email already exists \U{1F61F}"
  const MsgRegistered: string := "User registered successfully \U{2705}"

  /** Lifetime of an issued token, in seconds (`expiresIn: '1h'`). */
  const TokenLifetime: int := 3600

  /** The role written into the token: only a stored "admin" stays admin. */
  function IssuedRole(stored: string): (r: string)
    ensures r == "admin" || r == "user"
    ensures r == "admin" <==> stored == "admin"
  {
    if stored == "admin" then "admin" else "user"
  }

  /** The payload built from the stored row. */
  function PayloadOf(u: StoredUser): (p: UserPayload)
    ensures p.userId == u.userId && p.firstName == u.firstName && p.lastName == u.lastName && p.email == u.email
    ensures p.role == IssuedRole(u.role)
  {
    UserPayload(u.userId, u.firstName, u.lastName, u.email, IssuedRole(u.role))
  }

  /** `login(c)` for the request body's password. */
  function Login(password: string, lookup: Lookup, check: PasswordCheck, sign: Signer): (r: LoginReply)
    ensures r.LoginFailed? ==> r.status == 400 || r.status == 500
    ensures r.LoginFailed? && r.status == 400 ==> r.error == MsgBadCredentials
    ensures r.LoggedIn? ==>
      && lookup.Success? && lookup.value.Some?
      && check(password, lookup.value.value.passwordHash)
      && r.message == MsgLoginOk
      && r.user == PayloadOf(lookup.value.value)
      && sign(r.user).Success?
      && r.token == BearAuth.BearerPrefix + sign(r.user).value
    ensures lookup.Failure? ==> r == LoginFailed(500, lookup.error)
    ensures lookup.Success? && lookup.value.Some? && check(password, lookup.value.value.passwordHash) ==>
      var signed := sign(PayloadOf(lookup.value.value));
      && (signed.Success? ==> r.LoggedIn?)
      && (signed.Failure? ==> r == LoginFailed(500, signed.error))
  {
    match lookup
    case Failure(e) => LoginFailed(500, e)
    case Success(None) => LoginFailed(400, MsgBadCredentials)
    case Success(Some(existing)) =>
      if !check(password, existing.passwordHash) then LoginFailed(400, MsgBadCredentials)
      else
        var payload := PayloadOf(existing);
        match sign(payload)
        case Failure(e) => LoginFailed(500, e)
        case Success(signed) =>
          var userInfo := PayloadOf(existing);
          LoggedIn(MsgLoginOk, BearAuth.BearerPrefix + signed, userInfo)
  }

  /** An unknown e-mail and a wrong password give the very same answer, so
      the reply does not reveal whether the account exists. */
  lemma LoginFailuresIndistinguishable(password: string, u: StoredUser, check: PasswordCheck, sign: Signer)
    requires !check(password, u.passwordHash)
    ensures Login(password, Success(None), check, sign) == Login(password, Success(Some(u)), check, sign)
    ensures Login(password, Success(None), check, sign) == LoginFailed(400, MsgBadCredentials)
  {
  }

  /** A successful login issues "admin" exactly for stored admins; every other
      stored role, "customer" included, becomes "user". */
  lemma LoginRole(password: string, u: StoredUser, check: PasswordCheck, sign: Signer)
    requires Login(password, Success(Some(u)), check, sign).LoggedIn?
    ensures var role := Login(password, Success(Some(u)), check, sign).user.role;
      (role == "admin" <==> u.role == "admin") && (role == "user" <==> u.role != "admin")
  {
  }

  /** The issued token, used verbatim as the `Authorization` header, passes
      the gate's prefix check and yields exactly the signed token. */
  lemma LoginTokenRoundTrip(password: string, lookup: Lookup, check: PasswordCheck, sign: Signer)
    requires Login(password, lookup, check, sign).LoggedIn?
    ensures var r := Login(password, lookup, check, sign);
      BearAuth.BearerToken(r.token) == Some(sign(r.user).value)
  {
    var r := Login(password, lookup, check, sign);
    BearAuth.BearerTokenRoundTrip(sign(r.user).value);
  }

  /** The claims the JWT library hands back for a payload signed at `iat`. */
  function ClaimsOf(p: UserPayload, iat: int): (d: BearAuth.Decoded)
    ensures d.role == p.role && d.email == p.email && d.userId == p.userId
    ensures d.iat == Some(iat) && d.exp == Some(iat + TokenLifetime)
  {
    BearAuth.Decoded(p.userId, p.firstName, p.lastName, p.email, p.role, Some(iat), Some(iat + TokenLifetime))
  }

  /** Presented within its hour, a token issued by login (at a time whose
      hour ends within the range of a `Date`) passes the gate as its role
      allows: every policy but "customer" and "admin" admits a
      non-admin login, and since login never issues "customer", only admins
      pass the customer gate. */
  lemma IssuedTokenAtTheGate(password: string, u: StoredUser, check: PasswordCheck, sign: Signer,
                             secret: string, jwtVerify: BearAuth.JwtVerify, nowMs: int, iat: int, required: BearAuth.Policy)
    requires Login(password, Success(Some(u)), check, sign).LoggedIn?
    requires secret != ""
    requires var p := PayloadOf(u);
      sign(p).Success? && jwtVerify(sign(p).value, secret) == Some(ClaimsOf(p, iat))
    requires 0 < iat + TokenLifetime && nowMs < (iat + TokenLifetime + 1) * 1000
    requires iat + TokenLifetime <= BearAuth.MaxDateSeconds
    ensures var r := Login(password, Success(Some(u)), check, sign);
      var gate := BearAuth.AuthMiddleware(Some(r.token), Some(secret), jwtVerify, nowMs, required);
      && (required == BearAuth.RequireBoth ==> gate == BearAuth.Allow(ClaimsOf(r.user, iat)))
      && (required == BearAuth.RequireCustomer || required == BearAuth.RequireAdmin ==> (gate.Allow? <==> u.role == "admin"))
      && (required == BearAuth.RequireUser ==> (gate.Allow? <==> u.role != "admin"))
  {
    var r := Login(password, Success(Some(u)), check, sign);
    var signed := sign(r.user).value;
    var d := ClaimsOf(r.user, iat);
    BearAuth.BearerTokenRoundTrip(signed);
    assert r.token[7..] == signed;
    assert BearAuth.CurrentSeconds(nowMs) <= iat + TokenLifetime;
    assert BearAuth.VerifyToken(signed, secret, jwtVerify, nowMs) == Some(d);
    BearAuth.DecisionAfterVerification(Some(r.token), Some(secret), jwtVerify, nowMs, required, d);
  }

  // ---------------------------------------------------------------------
  // Registration

  datatype RegisterRequest = RegisterRequest(
    firstName: string,
    lastName: string,
    email: string,
    phone: string,
    password: string)

  /** The side-effecting calls registration makes, in order. */
  datatype Effect =
    | LookupEmail(email: string)
    | InsertUser(firstName: string, lastName: string, email: string, phone: string, passwordHash: string)
    | SendWelcomeMail(email: string, firstName: string)

  datatype RegisterReply =
    | Created(message: string)              // 201
    | RegisterFailed(status: int, error: string)

  datatype Registration = Registration(reply: RegisterReply, calls: seq<Effect>)

  /** `register(c)`. `hash` is bcrypt with a fresh salt, `insert` what
      `registerUser` returned or threw, `mailError` the message
      `sendNotificationEmail` threw, if it threw (its result is ignored). */
  function Register(body: RegisterRequest, lookup: Lookup, hash: string -> string,
                    insert: Result<string, string>, mailError: Option<string>): (r: Registration)
    ensures |r.calls| >= 1 && r.calls[0] == LookupEmail(body.email)
    ensures r.reply.Created? ==> r.reply.message == MsgRegistered
    ensures r.reply.RegisterFailed? ==> r.reply.status == 400 || r.reply.status == 500
    ensures forall i :: 0 <= i < |r.calls| && r.calls[i].InsertUser? ==>
      r.calls[i] == InsertUser(body.firstName, body.lastName, body.email, body.phone, hash(body.password))
  {
    var calls := [LookupEmail(body.email)];
    match lookup
    case Failure(e) => Registration(RegisterFailed(500, e), calls)
    case Success(Some(_)) => Registration(RegisterFailed(400, MsgEmailTaken), calls)
    case Success(None) =>
      var hashed := hash(body.password);
      var calls := calls + [InsertUser(body.firstName, body.lastName, body.email, body.phone, hashed)];
      match insert
      case Failure(e) => Registration(RegisterFailed(500, e), calls)
      case Success(result) =>
        var calls := calls + [SendWelcomeMail(body.email, body.firstName)];
        if mailError.Some? then Registration(RegisterFailed(500, mailError.value), calls)
        else if result == MsgRegistered then Registration(Created(result), calls)
        else Registration(RegisterFailed(500, result), calls)
  }

  /** An e-mail already on file is refused with 400 and `registerUser` is never called. */
  lemma RegisterExistingEmail(body: RegisterRequest, u: StoredUser, hash: string -> string,
                              insert: Result<string, string>, mailError: Option<string>)
    ensures Register(body, Success(Some(u)), hash, insert, mailError)
         == Registration(RegisterFailed(400, MsgEmailTaken), [LookupEmail(body.email)])
    ensures forall e :: e in Register(body, Success(Some(u)), hash, insert, mailError).calls ==> !e.InsertUser?
  {
  }

  /** 201 exactly when the e-mail is new, `registerUser` reports the success
      string and the mailer does not throw. Any other string from
      `registerUser` becomes a 500 carrying that string. */
  lemma RegisterCreatedExactly(body: RegisterRequest, lookup: Lookup, hash: string -> string,
                               insert: Result<string, string>, mailError: Option<string>)
    ensures Register(body, lookup, hash, insert, mailError).reply.Created?
        <==> lookup == Success(None) && insert == Success(MsgRegistered) && mailError.None?
    ensures lookup == Success(None) && insert.Success? && insert.value != MsgRegistered && mailError.None? ==>
      Register(body, lookup, hash, insert, mailError).reply == RegisterFailed(500, insert.value)
  {
  }

  /** Once `registerUser` has returned, the welcome mail is attempted, whether
      the registration succeeded or not; it is attempted in no other case. */
  lemma RegisterMailAttempted(body: RegisterRequest, lookup: Lookup, hash: string -> string,
                              insert: Result<string, string>, mailError: Option<string>)
    ensures var calls := Register(body, lookup, hash, insert, mailError).calls;
      (SendWelcomeMail(body.email, body.firstName) in calls) <==> lookup == Success(None) && insert.Success?
  {
  }
}

=== FILE: bearauth.dfy ===
/** The bearer-token role gate in front of every protected route.

    A request is decided by a fixed chain of checks: the `Authorization`
    header must be present, must carry the literal prefix "Bearer " (the
    scheme of section 2.1 of RFC 6750, here case-sensitive and with exactly
    one space), the signing secret must be configured, the token must verify
    and be unexpired, and the token's role must satisfy the route's policy.
    The signature check of the JWT library is an oracle; the clock is the
    parameter `nowMs` (milliseconds, as `Date.now()`). */
module BearAuth {
  import opened Wrappers

  /** The claims a verified token carries. `role` is whatever string the
      payload holds: the payload is untrusted, so it may be no known role. */
  datatype Decoded = Decoded(
    userId: string,
    firstName: string,
    lastName: string,
    email: string,
    role: string,
    iat: Option<int>,
    exp: Option<int>)

  /** A role as the gate understands it. */
  datatype Role = Admin | User | Customer | Other(name: string)

  /** The role a policy asks for; `RequireBoth` is the legacy wildcard. */
  datatype Policy = RequireAdmin | RequireUser | RequireCustomer | RequireBoth

  /** The gate's decision: pass the request on with the decoded token attached,
      or answer it with a status code and an error message. */
  datatype Outcome = Allow(user: Decoded) | Reject(status: int, error: string)

  /** `jwt.verify(token, secret)`: `None` when the library throws. */
  type JwtVerify = (string, string) -> Option<Decoded>

  const BearerPrefix: string := "Bearer "

  const MsgHeaderRequired: string := "Authorization header is required"
  const MsgBearerRequired: string := "Bearer token is required"
  const MsgConfigError: string := "Server configuration error"
  const MsgInvalidToken: string := "Invalid or expired token"
  const MsgForbidden: string := "Insufficient permissions"

  /** Parses the payload's role string. */
  function RoleOf(s: string): (r: Role)
    ensures r.Other? <==> s != "admin" && s != "user" && s != "customer"
    ensures r.Other? ==> r.name == s
  {
    if s == "admin" then Admin
    else if s == "user" then User
    else if s == "customer" then Customer
    else Other(s)
  }

  /** The policy table: which roles each policy accepts. */
  function AcceptedRoles(p: Policy): set<Role> {
    match p
    case RequireAdmin => {Admin}
    case RequireUser => {User}
    case RequireCustomer => {Customer, Admin}
    case RequireBoth => {Admin, User, Customer}
  }

  /** JavaScript truthiness of an optional string: absent and "" are both falsy. */
  predicate Present(s: Option<string>) {
    s.Some? && s.value != ""
  }

  predicate HasBearerPrefix(h: string) {
    |h| >= |BearerPrefix| && h[..|BearerPrefix|] == BearerPrefix
  }

  /** `header.startsWith("Bearer ") ? header.substring(7) : <none>`. */
  function BearerToken(header: string): (t: Option<string>)
    ensures t.Some? <==> HasBearerPrefix(header)
    ensures t.Some? ==> header == BearerPrefix + t.value
  {
    if HasBearerPrefix(header) then Some(header[7..]) else None
  }

  /** Prefixing "Bearer " and stripping it again gives back the token. */
  lemma BearerTokenRoundTrip(token: string)
    ensures BearerToken(BearerPrefix + token) == Some(token)
  {
    assert (BearerPrefix + token)[..7] == BearerPrefix;
    assert (BearerPrefix + token)[7..] == token;
  }

  /** `Math.floor(Date.now() / 1000)`, the clock in whole seconds. */
  function CurrentSeconds(nowMs: int): int {
    nowMs / 1000
  }

  /** The largest number of seconds from the epoch that a JavaScript `Date`
      can hold: 8.64e15 milliseconds, by section 21.4.1.1 of ECMA-262. */
  const MaxDateSeconds: int := 8_640_000_000_000

  /** `new Date(v * 1000).toISOString()` does not throw: the claim is present
      (absent, `v * 1000` is `NaN`) and within the range of a `Date`. */
  predicate LoggableTime(v: Option<int>) {
    v.Some? && -MaxDateSeconds <= v.value <= MaxDateSeconds
  }

  /** `verifyToken(token, secret)`. After the library accepts the token, its
      `exp` and `iat` are logged as dates, inside the `try`: a claim that no
      `Date` can hold throws, and the `catch` answers null. Then the expiry
      claim is re-checked: `exp < now` rejects, and a zero `exp` (falsy)
      skips the check. */
  function VerifyToken(token: string, secret: string, jwtVerify: JwtVerify, nowMs: int): (r: Option<Decoded>)
    ensures jwtVerify(token, secret).None? ==> r.None?
    ensures r.Some? ==> jwtVerify(token, secret) == r
    ensures r.Some? ==> LoggableTime(r.value.exp) && LoggableTime(r.value.iat)
    ensures r.Some? && r.value.exp.value != 0 ==> r.value.exp.value * 1000 > nowMs - 1000
    ensures jwtVerify(token, secret).Some? ==>
      var d := jwtVerify(token, secret).value;
      (r.None? <==> !LoggableTime(d.exp) || !LoggableTime(d.iat)
                    || (d.exp.value != 0 && d.exp.value < CurrentSeconds(nowMs)))
  {
    match jwtVerify(token, secret)
    case None => None
    case Some(decoded) =>
      if !LoggableTime(decoded.exp) || !LoggableTime(decoded.iat) then None
      else
        var currentTime := CurrentSeconds(nowMs);
        if decoded.exp.value != 0 && decoded.exp.value < currentTime then None
        else Some(decoded)
  }

  /** The role test of `authMiddleware`, as the source writes it: string
      comparisons against the payload's role. */
  predicate RoleSatisfies(required: Policy, role: string) {
    if required == RequireBoth then role == "admin" || role == "user" || role == "customer"
    else if required == RequireCustomer then role == "customer" || role == "admin"
    else role == (if required == RequireAdmin then "admin" else "user")
  }

  /** The string comparisons implement exactly the policy table. */
  lemma RoleSatisfiesMatchesTable(required: Policy, role: string)
    ensures RoleSatisfies(required, role) <==> RoleOf(role) in AcceptedRoles(required)
  {
  }

  /** `authMiddleware(c, next, required)`. */
  function AuthMiddleware(header: Option<string>, secret: Option<string>, jwtVerify: JwtVerify, nowMs: int, required: Policy): (r: Outcome)
    ensures !Present(header) ==> r == Reject(401, MsgHeaderRequired)
    ensures Present(header) && !HasBearerPrefix(header.value) ==> r == Reject(401, MsgBearerRequired)
    ensures Present(header) && HasBearerPrefix(header.value) && !Present(secret) ==> r == Reject(500, MsgConfigError)
    ensures Present(header) && HasBearerPrefix(header.value) && Present(secret) ==>
      VerifyToken(header.value[7..], secret.value, jwtVerify, nowMs).None? ==> r == Reject(401, MsgInvalidToken)
    ensures r.Reject? ==> r.status in {401, 403, 500}
    ensures r.Allow? ==>
      && Present(header) && Present(secret)
      && BearerToken(header.value) == Some(header.value[7..])
      && jwtVerify(header.value[7..], secret.value) == Some(r.user)
      && RoleOf(r.user.role) in AcceptedRoles(required)
    ensures r.Reject? && r.status == 403 ==>
      && Present(header) && HasBearerPrefix(header.value) && Present(secret)
      && var d := VerifyToken(header.value[7..], secret.value, jwtVerify, nowMs);
         d.Some? && RoleOf(d.value.role) !in AcceptedRoles(required)
  {
    if !Present(header) then Reject(401, MsgHeaderRequired)
    else if !HasBearerPrefix(header.value) then Reject(401, MsgBearerRequired)
    else
      var token := header.value[7..];
      if !Present(secret) then Reject(500, MsgConfigError)
      else match VerifyToken(token, secret.value, jwtVerify, nowMs)
        case None => Reject(401, MsgInvalidToken)
        case Some(decoded) =>
          RoleSatisfiesMatchesTable(required, decoded.role);
          if RoleSatisfies(required, decoded.role) then Allow(decoded)
          else Reject(403, MsgForbidden)
  }

  /** `adminRoleAuth`: only tokens whose role is "admin" get through. */
  function AdminRoleAuth(header: Option<string>, secret: Option<string>, jwtVerify: JwtVerify, nowMs: int): (r: Outcome)
    ensures r.Allow? ==> r.user.role == "admin"
  {
    AuthMiddleware(header, secret, jwtVerify, nowMs, RequireAdmin)
  }

  /** `userRoleAuth`: only tokens whose role is "user" get through. */
  function UserRoleAuth(header: Option<string>, secret: Option<string>, jwtVerify: JwtVerify, nowMs: int): (r: Outcome)
    ensures r.Allow? ==> r.user.role == "user"
  {
    AuthMiddleware(header, secret, jwtVerify, nowMs, RequireUser)
  }

  /** `customerRoleAuth`: customers, and admins acting as customers. */
  function CustomerRoleAuth(header: Option<string>, secret: Option<string>, jwtVerify: JwtVerify, nowMs: int): (r: Outcome)
    ensures r.Allow? ==> r.user.role == "customer" || r.user.role == "admin"
  {
    AuthMiddleware(header, secret, jwtVerify, nowMs, RequireCustomer)
  }

  /** `bothRolesAuth`: any of the three known roles; an unknown role string never. */
  function BothRolesAuth(header: Option<string>, secret: Option<string>, jwtVerify: JwtVerify, nowMs: int): (r: Outcome)
    ensures r.Allow? ==> !RoleOf(r.user.role).Other?
  {
    AuthMiddleware(header, secret, jwtVerify, nowMs, RequireBoth)
  }

  /** `adminOrCustomerAuth`, the hand-inlined variant of the chain. */
  function AdminOrCustomerAuth(header: Option<string>, secret: Option<string>, jwtVerify: JwtVerify, nowMs: int): (r: Outcome)
    ensures r.Allow? ==> r.user.role == "admin" || r.user.role == "customer"
    ensures r.Reject? ==> r.error != MsgHeaderRequired
    ensures !Present(header) || !HasBearerPrefix(header.value) ==> r == Reject(401, MsgBearerRequired)
    ensures Present(header) && HasBearerPrefix(header.value) && !Present(secret) ==> r == Reject(500, MsgConfigError)
    ensures Present(header) && HasBearerPrefix(header.value) && Present(secret) ==>
      VerifyToken(header.value[7..], secret.value, jwtVerify, nowMs).None? ==> r == Reject(401, MsgInvalidToken)
  {
    if !Present(header) || !HasBearerPrefix(header.value) then Reject(401, MsgBearerRequired)
    else
      var token := header.value[7..];
      if !Present(secret) then Reject(500, MsgConfigError)
      else match VerifyToken(token, secret.value, jwtVerify, nowMs)
        case None => Reject(401, MsgInvalidToken)
        case Some(decoded) =>
          if decoded.role == "admin" || decoded.role == "customer" then Allow(decoded)
          else Reject(403, MsgForbidden)
  }

  // ---------------------------------------------------------------------
  // Properties of the chain

  /** Without a secret the answer is 500 whatever the verifier would say:
      the secret is checked before any verification. */
  lemma MissingSecretPrecedesVerification(header: Option<string>, secret: Option<string>, v1: JwtVerify, v2: JwtVerify, nowMs: int, required: Policy)
    requires Present(header) && HasBearerPrefix(header.value)
    requires !Present(secret)
    ensures AuthMiddleware(header, secret, v1, nowMs, required) == Reject(500, MsgConfigError)
    ensures AuthMiddleware(header, secret, v1, nowMs, required) == AuthMiddleware(header, secret, v2, nowMs, required)
  {
  }

  /** The verifier is consulted on exactly one question: the header with its
      first seven characters ("Bearer ") removed, under the configured secret;
      without the prefix it is not consulted at all. Two verifiers that agree
      on that one question lead to the same outcome. */
  lemma VerifierSeesBearerSuffix(header: Option<string>, secret: Option<string>, v1: JwtVerify, v2: JwtVerify, nowMs: int, required: Policy)
    requires Present(header) && Present(secret)
    requires BearerToken(header.value).Some? ==>
      var token := BearerToken(header.value).value;
      v1(token, secret.value) == v2(token, secret.value)
    ensures AuthMiddleware(header, secret, v1, nowMs, required) == AuthMiddleware(header, secret, v2, nowMs, required)
  {
  }

  /** Once the token verifies, the outcome is decided by the policy table
      alone, and an allowed request carries the decoded token unchanged. */
  lemma DecisionAfterVerification(header: Option<string>, secret: Option<string>, jwtVerify: JwtVerify, nowMs: int, required: Policy, d: Decoded)
    requires Present(header) && HasBearerPrefix(header.value) && Present(secret)
    requires VerifyToken(header.value[7..], secret.value, jwtVerify, nowMs) == Some(d)
    ensures AuthMiddleware(header, secret, jwtVerify, nowMs, required)
         == if RoleOf(d.role) in AcceptedRoles(required) then Allow(d) else Reject(403, MsgForbidden)
  {
  }

  /** A token the library accepts but whose `exp` lies in the past is
      rejected with 401, like a bad signature. */
  lemma ExpiredTokenRejected(header: Option<string>, secret: Option<string>, jwtVerify: JwtVerify, nowMs: int, required: Policy)
    requires Present(header) && HasBearerPrefix(header.value) && Present(secret)
    requires var lib := jwtVerify(header.value[7..], secret.value);
      lib.Some? && lib.value.exp.Some? && lib.value.exp.value != 0 && lib.value.exp.value * 1000 + 1000 <= nowMs
    ensures AuthMiddleware(header, secret, jwtVerify, nowMs, required) == Reject(401, MsgInvalidToken)
  {
    var e := jwtVerify(header.value[7..], secret.value).value.exp.value;
    assert e < CurrentSeconds(nowMs) by {
      assert (e + 1) * 1000 <= nowMs;
    }
  }

  /** The re-check is strict: a token the library accepts passes it when its
      `exp` is the current second, and when its `exp` is 0, provided both
      claims can be logged as dates. (The real library refuses both such
      tokens itself; see `RecheckRedundantAfterLibrary`.) */
  lemma ExpiryBoundary(token: string, secret: string, jwtVerify: JwtVerify, nowMs: int, d: Decoded)
    requires jwtVerify(token, secret) == Some(d)
    requires LoggableTime(d.exp) && LoggableTime(d.iat)
    requires d.exp.value == 0 || d.exp.value * 1000 <= nowMs < d.exp.value * 1000 + 1000
    ensures VerifyToken(token, secret, jwtVerify, nowMs) == Some(d)
  {
    if d.exp.value != 0 {
      assert CurrentSeconds(nowMs) == d.exp.value by {
        var e := d.exp.value;
        assert e * 1000 <= nowMs < (e + 1) * 1000;
      }
    }
  }

  /** `jwt.verify` refuses a token whose `exp` is at or before the current
      whole second. Given a verifier that does so, the re-check of
      `verifyToken` never rejects: a token with loggable claims comes back
      exactly as the library decoded it. */
  lemma RecheckRedundantAfterLibrary(token: string, secret: string, jwtVerify: JwtVerify, nowMs: int)
    requires var lib := jwtVerify(token, secret);
      lib.Some? && lib.value.exp.Some? ==> CurrentSeconds(nowMs) < lib.value.exp.value
    requires var lib := jwtVerify(token, secret);
      lib.Some? ==> LoggableTime(lib.value.exp) && LoggableTime(lib.value.iat)
    ensures VerifyToken(token, secret, jwtVerify, nowMs) == jwtVerify(token, secret)
  {
  }

  /** A token the library accepts is still refused with 401 when it carries
      no `exp` or no `iat`, or one that no `Date` can hold, whatever its
      expiry and role: logging it throws inside `verifyToken`. */
  lemma UnloggableClaimsRejected(header: Option<string>, secret: Option<string>, jwtVerify: JwtVerify, nowMs: int, required: Policy)
    requires Present(header) && HasBearerPrefix(header.value) && Present(secret)
    requires var lib := jwtVerify(header.value[7..], secret.value);
      lib.Some? && (!LoggableTime(lib.value.exp) || !LoggableTime(lib.value.iat))
    ensures AuthMiddleware(header, secret, jwtVerify, nowMs, required) == Reject(401, MsgInvalidToken)
    ensures AdminOrCustomerAuth(header, secret, jwtVerify, nowMs) == Reject(401, MsgInvalidToken)
  {
  }

  /** An unknown role string passes no policy. */
  lemma UnknownRoleForbidden(required: Policy, role: string)
    requires role != "admin" && role != "user" && role != "customer"
    ensures !RoleSatisfies(required, role)
    ensures RoleOf(role) !in AcceptedRoles(required)
  {
  }

  /** The policies are nested: admin within customer within both, and user within both. */
  lemma PoliciesNested()
    ensures AcceptedRoles(RequireAdmin) < AcceptedRoles(RequireCustomer) < AcceptedRoles(RequireBoth)
    ensures AcceptedRoles(RequireUser) < AcceptedRoles(RequireBoth)
    ensures User !in AcceptedRoles(RequireCustomer)
  {
  }

  /** The four exported wrappers are the middleware with the policy fixed. */
  lemma WrappersFixPolicy(header: Option<string>, secret: Option<string>, jwtVerify: JwtVerify, nowMs: int)
    ensures AdminRoleAuth(header, secret, jwtVerify, nowMs) == AuthMiddleware(header, secret, jwtVerify, nowMs, RequireAdmin)
    ensures UserRoleAuth(header, secret, jwtVerify, nowMs) == AuthMiddleware(header, secret, jwtVerify, nowMs, RequireUser)
    ensures CustomerRoleAuth(header, secret, jwtVerify, nowMs) == AuthMiddleware(header, secret, jwtVerify, nowMs, RequireCustomer)
    ensures BothRolesAuth(header, secret, jwtVerify, nowMs) == AuthMiddleware(header, secret, jwtVerify, nowMs, RequireBoth)
  {
  }

  /** `adminOrCustomerAuth` decides every request as the customer policy
      does, except that a missing header is reported as a missing bearer
      token; the status code always agrees. */
  lemma AdminOrCustomerIsCustomerPolicy(header: Option<string>, secret: Option<string>, jwtVerify: JwtVerify, nowMs: int)
    ensures AdminOrCustomerAuth(header, secret, jwtVerify, nowMs)
         == if Present(header) then AuthMiddleware(header, secret, jwtVerify, nowMs, RequireCustomer)
            else Reject(401, MsgBearerRequired)
    ensures AuthMiddleware(header, secret, jwtVerify, nowMs, RequireCustomer).Allow?
        <==> AdminOrCustomerAuth(header, secret, jwtVerify, nowMs).Allow?
    ensures AuthMiddleware(header, secret, jwtVerify, nowMs, RequireCustomer).Reject? ==>
      AuthMiddleware(header, secret, jwtVerify, nowMs, RequireCustomer).status == AdminOrCustomerAuth(header, secret, jwtVerify, nowMs).status
  {
    if Present(header) && HasBearerPrefix(header.value) && Present(secret) {
      var token := header.value[7..];
      match VerifyToken(token, secret.value, jwtVerify, nowMs)
      case None =>
      case Some(d) => RoleSatisfiesMatchesTable(RequireCustomer, d.role);
    }
  }

  /** A token claiming role "admin", issued now with the configured secret
      and expiring an hour from now, is let through the admin gate, as long
      as that hour ends within the range of a `Date`. */
  lemma AdminTokenScenario(token: string, secret: string, jwtVerify: JwtVerify, nowMs: int, d: Decoded)
    requires secret != "" && nowMs >= 0 && nowMs / 1000 + 3600 <= MaxDateSeconds
    requires d.role == "admin" && d.iat == Some(nowMs / 1000) && d.exp == Some(nowMs / 1000 + 3600)
    requires jwtVerify(token, secret) == Some(d)
    ensures AdminRoleAuth(Some(BearerPrefix + token), Some(secret), jwtVerify, nowMs) == Allow(d)
  {
    BearerTokenRoundTrip(token);
  }
}

=== FILE: dashboard.dfy ===
/** The pure part of the admin dashboard service: its change helpers, the
    headline statistics with their all-zero fallback, the normalisation of
    recent-booking rows and the utilisation figure of the top vehicles.

    Query results are inputs. A column that is NULL is `None`; for numeric
    columns `None` also stands for what `parseFloat`/`parseInt` cannot read. */
module DashboardService {
  import opened Wrappers
  import Js
  import Percentages
  import AnalyticsService

  /** `calculatePercentageChange(current, previous)`, the dashboard's own copy. */
  function PercentageChange(current: real, previous: real): (r: real)
    ensures Percentages.ChangeSpec(current, previous, r)
  {
    if previous == 0.0 then (if current > 0.0 then 100.0 else 0.0)
    else
      var change := ((current - previous) / previous) * 100.0;
      Percentages.RoundToTenth(change);
      Percentages.JsRound(change * 10.0) as real / 10.0
  }

  /** The dashboard and the analytics page compute the same change. */
  lemma PercentageChangeAgreesWithAnalytics(current: real, previous: real)
    ensures PercentageChange(current, previous) == AnalyticsService.PercentageChange(current, previous)
  {
    Percentages.ChangeSpecUnique(current, previous,
      PercentageChange(current, previous), AnalyticsService.PercentageChange(current, previous));
  }

  /** The mock figure reported as utilisation change. */
  const MockUtilizationChange: real := 5.2

  /** `calculateUtilizationChange(activeVehicles)`: a placeholder, 5.2 when
      any vehicle is active and 0 otherwise. */
  function UtilizationChange(activeVehicles: real): (r: real)
    ensures r == MockUtilizationChange <==> activeVehicles > 0.0
    ensures r == 0.0 <==> activeVehicles <= 0.0
  {
    if activeVehicles > 0.0 then MockUtilizationChange else 0.0
  }

  // ---------------------------------------------------------------------
  // Headline statistics

  /** The all-time row of the stats query. */
  datatype StatsRow = StatsRow(
    totalBookings: Option<int>,
    totalRevenue: Option<real>,
    totalUsers: Option<int>,
    activeVehicles: Option<int>,
    pendingBookings: Option<int>,
    completedBookings: Option<int>,
    activeBookings: Option<int>)

  /** What the dashboard's `getPreviousPeriodStats` returned. It answers zeros
      when its own queries fail, but obtaining the connection pool happens
      outside its `try`; that throw is the `Failure` of the `previous` input
      to `GetDashboardStats`. */
  datatype PreviousStats = PreviousStats(previousRevenue: real, previousBookings: int, previousUsers: int)

  datatype DashboardStats = DashboardStats(
    totalBookings: int,
    totalRevenue: real,
    totalUsers: int,
    activeVehicles: int,
    revenueChange: real,
    bookingChange: real,
    userChange: real,
    utilizationChange: real,
    pendingBookings: int,
    completedBookings: int,
    activeBookings: int)

  const ZeroStats: DashboardStats := DashboardStats(0, 0.0, 0, 0, 0.0, 0.0, 0.0, 0.0, 0, 0, 0)

  /** `getDashboardStats()`, given what the stats query and
      `getPreviousPeriodStats` returned or threw. Either throw lands in the
      same `catch`. */
  function GetDashboardStats(query: Result<StatsRow, string>, prev: Result<PreviousStats, string>): (s: DashboardStats)
    ensures query.Failure? || prev.Failure? ==> s == ZeroStats
    ensures query.Success? && prev.Success? ==>
      var row := query.value;
      var previous := prev.value;
      && s.totalBookings == row.totalBookings.GetOr(0)
      && s.totalRevenue == row.totalRevenue.GetOr(0.0)
      && s.totalUsers == row.totalUsers.GetOr(0)
      && s.activeVehicles == row.activeVehicles.GetOr(0)
      && s.pendingBookings == row.pendingBookings.GetOr(0)
      && s.completedBookings == row.completedBookings.GetOr(0)
      && s.activeBookings == row.activeBookings.GetOr(0)
      && Percentages.ChangeSpec(s.totalRevenue, previous.previousRevenue, s.revenueChange)
      && Percentages.ChangeSpec(s.totalBookings as real, previous.previousBookings as real, s.bookingChange)
      && Percentages.ChangeSpec(s.totalUsers as real, previous.previousUsers as real, s.userChange)
      && s.utilizationChange == MockUtilizationChange
  {
    if query.Failure? || prev.Failure? then ZeroStats
    else
      var row := query.value;
      var previous := prev.value;
      DashboardStats(
        row.totalBookings.GetOr(0),
        row.totalRevenue.GetOr(0.0),
        row.totalUsers.GetOr(0),
        row.activeVehicles.GetOr(0),
        PercentageChange(row.totalRevenue.GetOr(0.0), previous.previousRevenue),
        PercentageChange(row.totalBookings.GetOr(0) as real, previous.previousBookings as real),
        PercentageChange(row.totalUsers.GetOr(0) as real, previous.previousUsers as real),
        MockUtilizationChange,
        row.pendingBookings.GetOr(0),
        row.completedBookings.GetOr(0),
        row.activeBookings.GetOr(0))
  }

  /** A successful read reports 5.2 as utilisation change whatever the data,
      even with no active vehicle, where `UtilizationChange` would give 0;
      only a failed read reports 0. */
  lemma UtilizationChangeIsMock(query: Result<StatsRow, string>, prev: Result<PreviousStats, string>)
    ensures GetDashboardStats(query, prev).utilizationChange
         == (if query.Success? && prev.Success? then MockUtilizationChange else 0.0)
    ensures query.Success? && prev.Success? && query.value.activeVehicles.GetOr(0) == 0 ==>
      GetDashboardStats(query, prev).utilizationChange != UtilizationChange(0.0)
  {
  }

  // ---------------------------------------------------------------------
  // Top vehicles

  /** The cap on utilisation, in percent. */
  const UtilizationCap: int := 100

  /** `Math.min(Math.round(count * 100 / 30), 100) || 0`: bookings over a
      30-day month as a percentage, capped at 100; an unreadable count gives 0. */
  function TopVehicleUtilization(bookingCount: Option<int>): (u: int)
    ensures bookingCount.None? ==> u == 0
    ensures u <= UtilizationCap
    ensures bookingCount.Some? && bookingCount.value >= 0 ==> 0 <= u
    ensures bookingCount.Some? ==> (u == UtilizationCap <==> bookingCount.value >= 30)
  {
    match bookingCount
    case None => 0
    case Some(n) =>
      var rounded := Percentages.JsRound((n * 100) as real / 30.0);
      if rounded < UtilizationCap then rounded else UtilizationCap
  }

  /** The same figure in whole-number arithmetic: the nearest integer to
      10n/3 is (20n + 3) div 6, capped at 100. */
  lemma TopVehicleUtilizationInIntegers(n: int)
    ensures TopVehicleUtilization(Some(n)) == if (20 * n + 3) / 6 < 100 then (20 * n + 3) / 6 else 100
  {
    var k := Percentages.JsRound((n * 100) as real / 30.0);
    var q := (20 * n + 3) / 6;
    assert (n * 100) as real / 30.0 + 0.5 == (20 * n + 3) as real / 6.0;
    assert q * 6 <= 20 * n + 3 < q * 6 + 6;
    assert q as real <= (20 * n + 3) as real / 6.0 < q as real + 1.0;
    assert k == q;
  }

  /** A row of the top-vehicles query. */
  datatype VehicleRow = VehicleRow(
    vehicleId: Option<string>,
    vehicleName: Option<string>,
    totalRevenue: Option<real>,
    bookingCount: Option<int>,
    vehicleType: Option<string>,
    rentalRate: Option<real>)

  datatype TopVehicle = TopVehicle(
    vehicleId: string,
    name: string,
    revenue: real,
    bookings: int,
    vehicleType: string,
    dailyRate: real,
    utilization: int)

  /** The mapping `getTopVehicles` applies to one row. */
  function ToTopVehicle(row: VehicleRow): (v: TopVehicle)
    ensures v.name != "" && v.vehicleType != ""
    ensures v.utilization <= UtilizationCap
    ensures v.bookings >= 0 ==> 0 <= v.utilization
    ensures v.bookings == row.bookingCount.GetOr(0)
    ensures v.utilization == TopVehicleUtilization(row.bookingCount)
    ensures v.vehicleId == Js.StrOr(row.vehicleId, "")
    ensures v.name == Js.StrOr(row.vehicleName, "Unknown Vehicle")
    ensures v.vehicleType == Js.StrOr(row.vehicleType, "Standard")
    ensures v.revenue == row.totalRevenue.GetOr(0.0) && v.dailyRate == row.rentalRate.GetOr(0.0)
  {
    TopVehicle(
      Js.StrOr(row.vehicleId, ""),
      Js.StrOr(row.vehicleName, "Unknown Vehicle"),
      row.totalRevenue.GetOr(0.0),
      row.bookingCount.GetOr(0),
      Js.StrOr(row.vehicleType, "Standard"),
      row.rentalRate.GetOr(0.0),
      TopVehicleUtilization(row.bookingCount))
  }

  /** `getTopVehicles(limit)`: each row mapped in order; a failed query gives
      no vehicles. */
  method GetTopVehicles(query: Result<seq<VehicleRow>, string>) returns (vehicles: seq<TopVehicle>)
    ensures query.Failure? ==> vehicles == []
    ensures query.Success? ==> |vehicles| == |query.value|
    ensures query.Success? ==> forall i :: 0 <= i < |vehicles| ==> vehicles[i] == ToTopVehicle(query.value[i])
    ensures forall i :: 0 <= i < |vehicles| ==> vehicles[i].utilization <= UtilizationCap
  {
    vehicles := [];
    if query.Failure? {
      return;
    }
    var rows := query.value;
    var i := 0;
    while i < |rows|
      invariant 0 <= i <= |rows|
      invariant |vehicles| == i
      invariant forall j :: 0 <= j < i ==> vehicles[j] == ToTopVehicle(rows[j])
    {
      vehicles := vehicles + [ToTopVehicle(rows[i])];
      i := i + 1;
    }
  }

  // ---------------------------------------------------------------------
  // Recent bookings

  const PendingStatus: string := "pending"

  /** `(status || 'pending').toLowerCase()`. */
  function NormalizeStatus(status: Option<string>): (r: string)
    ensures r != ""
    ensures Js.NoUpper(r)
    ensures status.None? || status.value == "" ==> r == PendingStatus
    ensures status.Some? && status.value != "" ==> |r| == |status.value|
    ensures status.Some? && status.value != "" ==> r == Js.ToLower(status.value)
    ensures status.Some? && Js.NoUpper(status.value) && status.value != "" ==> r == status.value
  {
    var s := Js.StrOr(status, PendingStatus);
    Js.ToLowerFixesLower(s);
    Js.ToLower(s)
  }

  /** Normalising a normalised status changes nothing. */
  lemma NormalizeStatusIdempotent(status: Option<string>)
    ensures NormalizeStatus(Some(NormalizeStatus(status))) == NormalizeStatus(status)
  {
  }

  /** A row of the recent-bookings query. */
  datatype BookingRow = BookingRow(
    bookingId: Option<string>,
    bookingReference: Option<string>,
    customerName: Option<string>,
    customerEmail: Option<string>,
    vehicleName: Option<string>,
    vehicleType: Option<string>,
    totalAmount: Option<real>,
    dailyRate: Option<real>,
    status: Option<string>,
    createdAt: Option<string>,
    startDate: Option<string>,
    endDate: Option<string>,
    pickupLocation: Option<string>,
    licensePlate: Option<string>)

  datatype RecentBooking = RecentBooking(
    bookingId: string,
    bookingReference: string,
    customerName: string,
    customerEmail: string,
    vehicleName: string,
    vehicleType: string,
    totalAmount: real,
    dailyRate: real,
    status: string,
    createdAt: string,
    startDate: string,
    endDate: string,
    pickupLocation: Option<string>,
    licensePlate: Option<string>)

  /** The three `new Date().toISOString()` values one row's mapping would
      use as fallbacks for its creation, start and end dates. Each is read
      from the clock separately, so they need not agree. */
  datatype FallbackTimes = FallbackTimes(createdAt: string, startDate: string, endDate: string) {
    /** `toISOString()` never yields the empty string. */
    predicate NonEmpty() {
      createdAt != "" && startDate != "" && endDate != ""
    }
  }

  const DefaultReference: string := "BOOK-00000000"
  const DefaultCustomer: string := "Unknown Customer"
  const DefaultVehicle: string := "Unknown Vehicle"
  const DefaultType: string := "Standard"

  /** The mapping `getRecentBookings` applies to one row; `now` holds the
      clock readings that stand in for its missing dates. */
  function ToRecentBooking(row: BookingRow, now: FallbackTimes): (b: RecentBooking)
    ensures b.bookingReference != "" && b.customerName != "" && b.vehicleName != "" && b.vehicleType != ""
    ensures b.status != "" && Js.NoUpper(b.status)
    ensures row.bookingReference.Some? && row.bookingReference.value != "" ==> b.bookingReference == row.bookingReference.value
    ensures row.customerName.Some? && row.customerName.value != "" ==> b.customerName == row.customerName.value
    ensures row.vehicleName.Some? && row.vehicleName.value != "" ==> b.vehicleName == row.vehicleName.value
    ensures row.vehicleType.Some? && row.vehicleType.value != "" ==> b.vehicleType == row.vehicleType.value
    ensures b.pickupLocation == row.pickupLocation && b.licensePlate == row.licensePlate
    ensures b.status == NormalizeStatus(row.status)
    ensures b.bookingId == Js.StrOr(row.bookingId, "") && b.customerEmail == Js.StrOr(row.customerEmail, "")
    ensures b.totalAmount == row.totalAmount.GetOr(0.0) && b.dailyRate == row.dailyRate.GetOr(0.0)
    ensures b.createdAt == (if row.createdAt.Some? && row.createdAt.value != "" then row.createdAt.value else now.createdAt)
    ensures b.startDate == (if row.startDate.Some? && row.startDate.value != "" then row.startDate.value else now.startDate)
    ensures b.endDate == (if row.endDate.Some? && row.endDate.value != "" then row.endDate.value else now.endDate)
  {
    RecentBooking(
      Js.StrOr(row.bookingId, ""),
      Js.StrOr(row.bookingReference, DefaultReference),
      Js.StrOr(row.customerName, DefaultCustomer),
      Js.StrOr(row.customerEmail, ""),
      Js.StrOr(row.vehicleName, DefaultVehicle),
      Js.StrOr(row.vehicleType, DefaultType),
      row.totalAmount.GetOr(0.0),
      row.dailyRate.GetOr(0.0),
      NormalizeStatus(row.status),
      Js.StrOr(row.createdAt, now.createdAt),
      Js.StrOr(row.startDate, now.startDate),
      Js.StrOr(row.endDate, now.endDate),
      row.pickupLocation,
      row.licensePlate)
  }

  /** Missing or empty text columns take their documented defaults. */
  lemma RecentBookingDefaults(row: BookingRow, now: FallbackTimes)
    requires forall v :: v in [row.bookingReference, row.customerName, row.vehicleName, row.vehicleType, row.status] ==> v.None? || v == Some("")
    ensures var b := ToRecentBooking(row, now);
      && b.bookingReference == DefaultReference
      && b.customerName == DefaultCustomer
      && b.vehicleName == DefaultVehicle
      && b.vehicleType == DefaultType
      && b.status == PendingStatus
  {
    assert row.status in [row.bookingReference, row.customerName, row.vehicleName, row.vehicleType, row.status];
  }

  /** Mapping a row twice settles: the normalised booking, read back as a
      row, maps to itself, whatever the clock reads the second time. */
  lemma RecentBookingNormalizationIdempotent(row: BookingRow, now: FallbackTimes, later: FallbackTimes)
    requires now.NonEmpty()
    ensures var b := ToRecentBooking(row, now);
      ToRecentBooking(AsRow(b), later) == b
  {
    NormalizeStatusIdempotent(row.status);
  }

  /** A normalised booking read back as a query row. */
  function AsRow(b: RecentBooking): BookingRow {
    BookingRow(Some(b.bookingId), Some(b.bookingReference), Some(b.customerName), Some(b.customerEmail),
      Some(b.vehicleName), Some(b.vehicleType), Some(b.totalAmount), Some(b.dailyRate), Some(b.status),
      Some(b.createdAt), Some(b.startDate), Some(b.endDate), b.pickupLocation, b.licensePlate)
  }

  /** `getRecentBookings(limit)`: each row mapped in order; a failed query
      gives no bookings. `clock(i)` holds the readings taken while mapping
      row `i`. */
  method GetRecentBookings(query: Result<seq<BookingRow>, string>, clock: nat -> FallbackTimes) returns (bookings: seq<RecentBooking>)
    ensures query.Failure? ==> bookings == []
    ensures query.Success? ==> |bookings| == |query.value|
    ensures query.Success? ==> forall i :: 0 <= i < |bookings| ==> bookings[i] == ToRecentBooking(query.value[i], clock(i))
    ensures forall i :: 0 <= i < |bookings| ==> Js.NoUpper(bookings[i].status) && bookings[i].status != ""
  {
    bookings := [];
    if query.Failure? {
      return;
    }
    var rows := query.value;
    var i := 0;
    while i < |rows|
      invariant 0 <= i <= |rows|
      invariant |bookings| == i
      invariant forall j :: 0 <= j < i ==> bookings[j] == ToRecentBooking(rows[j], clock(j))
    {
      bookings := bookings + [ToRecentBooking(rows[i], clock(i))];
      i := i + 1;
    }
  }
}

=== FILE: js.dfy ===
/** The few JavaScript value conventions the services rely on: the `x || d`
    fallback, which replaces every falsy value (absent, `""`, `0`, `NaN`) by a
    default, and `String.prototype.toLowerCase` restricted to ASCII.
    (For a numeric column, `parseFloat(x) || 0` is `Option.GetOr(0)`: `None`
    stands for `NaN`, and a parsed zero is already zero.) */
module Js {
  import opened Wrappers

  /** `s || fallback` for a string-valued column: absent and empty both fall back. */
  function StrOr(s: Option<string>, fallback: string): (r: string)
    ensures s.Some? && s.value != "" ==> r == s.value
    ensures s.None? || s.value == "" ==> r == fallback
    ensures fallback != "" ==> r != ""
  {
    if s.Some? && s.value != "" then s.value else fallback
  }

  predicate IsUpper(c: char) {
    'A' <= c <= 'Z'
  }

  /** ASCII lower-casing of one character: 'A'..'Z' map to 'a'..'z' in order. */
  function LowerChar(c: char): (d: char)
    ensures !IsUpper(d)
    ensures IsUpper(c) ==> 'a' <= d <= 'z' && d as int - 'a' as int == c as int - 'A' as int
    ensures !IsUpper(c) ==> d == c
  {
    if IsUpper(c) then (c as int - 'A' as int + 'a' as int) as char else c
  }

  /** No character of `s` is an upper-case letter. */
  predicate NoUpper(s: string) {
    forall i :: 0 <= i < |s| ==> !IsUpper(s[i])
  }

  /** ASCII `toLowerCase`: maps every character through LowerChar, position by position. */
  function ToLower(s: string): (r: string)
    ensures |r| == |s|
    ensures forall i :: 0 <= i < |s| ==> r[i] == LowerChar(s[i])
    ensures NoUpper(r)
  {
    if s == [] then [] else [LowerChar(s[0])] + ToLower(s[1..])
  }

  /** Lower-casing changes nothing in a string without upper-case letters. */
  lemma ToLowerFixesLower(s: string)
    ensures NoUpper(s) ==> ToLower(s) == s
  {
    if NoUpper(s) {
      var r := ToLower(s);
      assert forall i :: 0 <= i < |s| ==> r[i] == s[i];
    }
  }

  /** Lower-casing is idempotent. */
  lemma ToLowerIdempotent(s: string)
    ensures ToLower(ToLower(s)) == ToLower(s)
  {
    ToLowerFixesLower(ToLower(s));
  }
}

=== FILE: percentages.dfy ===
/** The arithmetic shared by the analytics and dashboard services: JavaScript's
    `Math.round` and the "percentage change, rounded to one decimal" rule.

    Numbers are exact reals here; `Math.round(x)` is `Floor(x + 1/2)`, which
    rounds halves upwards as JavaScript does. */
module Percentages {

  /** `Math.round(x)`: the integer within one half of `x`, halves going up. */
  function JsRound(x: real): (k: int)
    ensures x - 0.5 < k as real <= x + 0.5
  {
    (x + 0.5).Floor
  }

  /** `r` has at most one decimal: ten times it is a whole number. */
  predicate OneDecimal(r: real) {
    (r * 10.0).Floor as real == r * 10.0
  }

  /** `r` is `x` rounded to one decimal, halves going up: a multiple of 0.1
      within half a tenth of `x` (the upper end included). */
  predicate NearestTenth(r: real, x: real) {
    OneDecimal(r) && x * 10.0 - 0.5 < r * 10.0 <= x * 10.0 + 0.5
  }

  /** The exact relative change of `current` against a non-zero `previous`, in percent. */
  function ExactChange(current: real, previous: real): real
    requires previous != 0.0
  {
    (current - previous) / previous * 100.0
  }

  /** What a percentage-change helper promises: against a zero baseline,
      100 for any growth and 0 otherwise; else the exact change rounded to
      one decimal. */
  predicate ChangeSpec(current: real, previous: real, r: real) {
    if previous == 0.0 then r == (if current > 0.0 then 100.0 else 0.0)
    else NearestTenth(r, ExactChange(current, previous))
  }

  /** `Math.round(x * 10) / 10` is the nearest tenth of `x`. */
  lemma RoundToTenth(x: real)
    ensures NearestTenth(JsRound(x * 10.0) as real / 10.0, x)
  {
    var k := JsRound(x * 10.0);
    var r := k as real / 10.0;
    assert r * 10.0 == k as real;
  }

  /** There is only one nearest tenth, so every helper that meets the
      specification computes the same number. */
  lemma NearestTenthUnique(r1: real, r2: real, x: real)
    requires NearestTenth(r1, x) && NearestTenth(r2, x)
    ensures r1 == r2
  {
    var k1 := (r1 * 10.0).Floor;
    var k2 := (r2 * 10.0).Floor;
    assert (k1 - k2) as real < 1.0 && (k2 - k1) as real < 1.0;
  }

  /** The specification determines the result. */
  lemma ChangeSpecUnique(current: real, previous: real, r1: real, r2: real)
    requires ChangeSpec(current, previous, r1) && ChangeSpec(current, previous, r2)
    ensures r1 == r2
  {
    if previous != 0.0 {
      NearestTenthUnique(r1, r2, ExactChange(current, previous));
    }
  }

  /** Rounding keeps the sign, weakly: growth never shows as a decline and
      a decline never shows as growth. */
  lemma NearestTenthSign(r: real, x: real)
    requires NearestTenth(r, x)
    ensures x >= 0.0 ==> r >= 0.0
    ensures x <= 0.0 ==> r <= 0.0
    ensures x == 0.0 ==> r == 0.0
  {
    var k := (r * 10.0).Floor;
    assert k as real == r * 10.0;
    if x >= 0.0 {
      assert k as real > -0.5;
      assert k >= 0;
    }
    if x <= 0.0 {
      assert k as real <= 0.5;
      assert k <= 0;
    }
  }

  /** Rounding to the nearest tenth is monotonic. */
  lemma NearestTenthMonotonic(r: real, x: real, s: real, y: real)
    requires NearestTenth(r, x) && NearestTenth(s, y)
    requires x <= y
    ensures r <= s
  {
    var k := (r * 10.0).Floor;
    var m := (s * 10.0).Floor;
    assert k as real == r * 10.0 && m as real == s * 10.0;
    assert (k - m) as real < 1.0;
    assert k <= m;
  }

  /** Against a positive baseline, the change is signed like the difference. */
  lemma ChangeSignPositiveBase(current: real, previous: real, r: real)
    requires previous > 0.0
    requires ChangeSpec(current, previous, r)
    ensures current >= previous ==> r >= 0.0
    ensures current <= previous ==> r <= 0.0
    ensures current == previous ==> r == 0.0
  {
    var x := ExactChange(current, previous);
    if current >= previous {
      assert current - previous >= 0.0;
      assert x >= 0.0;
    }
    if current <= previous {
      assert (current - previous) / previous <= 0.0;
      assert x <= 0.0;
    }
    NearestTenthSign(r, x);
  }

  /** Against a fixed positive baseline, more current gives a larger change. */
  lemma ChangeMonotonic(c1: real, c2: real, previous: real, r1: real, r2: real)
    requires previous > 0.0 && c1 <= c2
    requires ChangeSpec(c1, previous, r1) && ChangeSpec(c2, previous, r2)
    ensures r1 <= r2
  {
    assert (c1 - previous) / previous <= (c2 - previous) / previous;
    NearestTenthMonotonic(r1, ExactChange(c1, previous), r2, ExactChange(c2, previous));
  }
}

=== FILE: wrappers.dfy ===
/** The optional-value and outcome types used throughout the model.
    Option stands for a JavaScript value that may be `undefined`/`null`;
    Result stands for a call that either returns or throws (the error is the
    thrown error's message). */
module Wrappers {

  datatype Option<+T> = None | Some(value: T) {

    /** The wrapped value, or `default` when there is none. */
    function GetOr(default: T): T {
      match this
      case Some(v) => v
      case None => default
    }
  }

  datatype Result<+R, +E> = Success(value: R) | Failure(error: E)
}
